=== FILE: README.md ===
# dj-saml-idp: signing pipeline and base SAML processor, modelled in Dafny

This project models two pieces of the Django SAML 2.0 identity provider.

- **`saml2idp/xml_signing.py`** (module `XmlSigning`). Choosing where the
  private key and the certificate come from: inline configuration data or a
  file. Cutting the certificate body out of PEM text with
  `''.join(pem.split('\n')[1:-2])`. Wiring the enveloped RSA-SHA1 XML
  signature: the subject's digest goes into the SignedInfo template, that
  SignedInfo object's `get_xml_string()` is RSA-signed, and the same object's
  `xml` goes into the Signature template with the signature and the
  certificate.
- **`saml2idp/base.py`** (module `Processor`). The base `Processor`:
  - construction from a service provider (SP) config;
  - `_reset`;
  - reading the AuthnRequest from the session, parsing it and checking its ACS
    URL (`can_handle`);
  - the IdP-initiated deep link;
  - the audience fallback;
  - the assertion and response parameter dicts with their `update` precedence;
  - `generate_response` as a fixed sequence of steps;
  - `get_random_id`.

The processor's attributes form one immutable record. Each operation returns
the updated record or the exception the source raises (`Result`/`Outcome`).
Some code lives outside these files: M2Crypto, `hashlib`, `codex.nice64`, UTF-8
encoding and decoding, `xml_templates`, `RequestProcessor`, `xml_render`, the
clock, and the Django request. Each of these becomes a record of functions or
values passed in as a parameter. The global `SAML2IDP_CONFIG` becomes an
explicit `idp`/`config` argument.

Supporting modules:
- `Wrappers`: `Option`, `Result`, `Outcome`.
- `PyValue`: a Python value (`None`, `str`, `bytes`), truthiness, `dict.get`
  and `dict.update`.
- `PySeq`: `str.split`, `join`, and list slicing with Python's bound rules.
- `Hex`: the `'%032x'` rendering behind `uuid4().hex`, with its inverse.

Points where the code behaves in a way a reader might not expect:
- **No dedicated configuration error.** When neither inline data nor a file
  name is configured, the code does not raise an error of its own. It hands
  `None` to the M2Crypto loader (`LoadCertificate`, `LoadPrivateKey`).
- **Inline certificate returned as is.** Inline certificate data is returned
  verbatim, whatever it is: an empty string, `None`, anything. It is not
  normalised.
- **Different presence tests for key and certificate.** Key and certificate
  are not selected the same way. The certificate tests whether its key is
  present in the config. The private key tests whether its value is truthy.
- **Signed text versus embedded text.** The text signed is the SignedInfo
  object's `get_xml_string()`. The text embedded is its `xml` property. These
  are identical only if the template renders them identically. This is the
  `StableRendering` assumption of `EmbeddedSignatureVerifies`.
- **`sp_config` is ignored.** The `_reset` docstring says a given `sp_config`
  is used. The code never reads it, so `Reset` takes no such argument.

## Model

| member | source | states |
|---|---|---|
| `PySeq.Split` | saml2idp/xml_signing.py:25 | `pem.split('\n')` gives at least one piece, and no piece contains the separator |
| `PySeq.JoinSplit` | saml2idp/xml_signing.py:25 | joining the pieces of a split with the separator gives back the original string |
| `PySeq.SplitJoin` | saml2idp/xml_signing.py:25 | splitting separator-free pieces joined by the separator gives back exactly those pieces |
| `PySeq.TerminatedIsJoin` | saml2idp/xml_signing.py:25 | newline-terminated lines are the lines joined by newlines plus one empty final piece, which is what `split('\n')` returns for PEM text |
| `PySeq.ConcatExcludes` | saml2idp/xml_signing.py:25 | `''.join` of pieces without a character has no such character |
| `PySeq.SliceBound` | saml2idp/xml_signing.py:25 | Python's slice-bound normalisation: a negative bound counts from the end, and the result is clamped to the list |
| `PySeq.Slice` | saml2idp/xml_signing.py:25 | `xs[start:stop]` has length `hi - lo` for the normalised bounds `lo < hi` and is empty otherwise, and holds, in order, the elements from the normalised start onward |
| `PySeq.SliceDropsFirstAndLastTwo` | saml2idp/xml_signing.py:25 | `xs[1:-2]` is the elements at indices 1 to n-3, and empty when n <= 3 |
| `PyValue.Get` | saml2idp/base.py:50 | `d.get(k, default)` is `d[k]` when the key is present and the default otherwise |
| `PyValue.Update` | saml2idp/base.py:88-89 | `d.update(e)` has the keys of both, and `e`'s value wins on a shared key |
| `XmlSigning.PemBody` | saml2idp/xml_signing.py:25 | the body contains no newline, and is the concatenation of split lines 1 to n-3 (empty when n <= 3) |
| `XmlSigning.PemBodyOfPemLayout` | saml2idp/xml_signing.py:25 | for PEM text `H\nb1\n...\nbk\nF\n` the body is exactly `b1+...+bk`, with header and footer gone |
| `XmlSigning.LoadCertificate` | saml2idp/xml_signing.py:17-25 | if the inline-certificate key is present, its value is returned verbatim and no file is loaded. Otherwise the result is the PEM body of the loaded file, and it fails exactly when loading or decoding fails, with that step's error |
| `XmlSigning.KeyFileArgument` | saml2idp/xml_signing.py:40-42 | a `bytes` key file name is UTF-8 decoded, any other value passes unchanged, and no `bytes` ever reaches the loader |
| `XmlSigning.LoadPrivateKey` | saml2idp/xml_signing.py:28-42 | truthy inline key data is parsed directly. Absent, `None` or empty data falls through to the (decoded) key file name. A decoding failure, or the loader's own result or exception, is the result |
| `XmlSigning.EmptyInlineValues` | saml2idp/xml_signing.py:17-34 | an empty inline certificate is returned as `''`, while an empty inline key falls back to the key file |
| `XmlSigning.SignWithRsa` | saml2idp/xml_signing.py:45-48 | the result is `nice64` of init, a single update with the UTF-8 bytes of the data, then final. It fails exactly when one of those steps does |
| `XmlSigning.SubjectDigest` | saml2idp/xml_signing.py:64-67 | the digest fails exactly when the base64 of the SHA-1 is not UTF-8, with that error. Given a sound UTF-8 codec, its UTF-8 bytes are that base64 |
| `XmlSigning.DigestDecodesToHash` | saml2idp/xml_signing.py:64-67 | given sound codecs, base64-decoding the digest text gives the SHA-1 of the subject's UTF-8 bytes |
| `XmlSigning.SignedInfoFor` | saml2idp/xml_signing.py:71-74 | the SignedInfo template gets exactly REFERENCE_URI and SUBJECT_DIGEST |
| `XmlSigning.AssembleSignature` | saml2idp/xml_signing.py:64-86 | the Signature template gets exactly RSA_SIGNATURE, SIGNED_INFO and CERTIFICATE. SIGNED_INFO is the `xml` of the one SignedInfo object, built from the reference URI and the subject digest, whose `get_xml_string()` was signed. The certificate is passed through. It fails exactly when the digest, the signing or the decode of the signature fails, with the error of the first step that fails |
| `XmlSigning.GetSignatureXml` | saml2idp/xml_signing.py:51-89 | the key is loaded first, then the certificate, then the signature is assembled. The first failure among key, certificate and assembly is the result, with its error unchanged, and the output is the Signature object's `xml` |
| `XmlSigning.EmbeddedSignatureVerifies` | saml2idp/xml_signing.py:64-86 | with sound base64 and UTF-8 codecs, a stable rendering and a certificate that certifies the key, a verifier accepts the embedded RSA signature over the embedded SignedInfo text |
| `Hex.ToHex` | saml2idp/base.py:21 | `'%0*x'` rendering has exactly `width` lower-case hex digits |
| `Hex.FromToHex` | saml2idp/base.py:21 | a number below 16^width is recovered from its width-digit rendering |
| `Hex.ToFromHex` | saml2idp/base.py:21 | every hex string denotes a number below 16^len whose rendering is that string |
| `Processor.RandomId` | saml2idp/base.py:19-22 | the id is `'_'` followed by 32 hex digits |
| `Processor.RandomIdDistinct` | saml2idp/base.py:19-22 | an id never starts with a digit, the UUID can be read back from it, and distinct UUIDs give distinct ids |
| `Processor.DottedPath` | saml2idp/base.py:39-43 | the path is the module name, a `.`, then the class name |
| `Processor.New` | saml2idp/base.py:45-61 | construction succeeds exactly when `config.get('processor','invalid')` equals the dotted path and `'acs_url'` is in the config. Every failure is ImproperlyConfigured. On success the processor holds the config |
| `Processor.MissingProcessorRejected` | saml2idp/base.py:50-56 | a config with no `processor` entry is always rejected, because `'invalid'` is never a dotted path |
| `Processor.Reset` | saml2idp/base.py:190-212 | fails only with KeyError on a missing `issuer`. The per-request attributes become None, the subject format becomes the email NameID format, ISSUER comes from the IdP config, and the assertion id, audience, session index and response fields carry over |
| `Processor.ExtractSamlRequest` | saml2idp/base.py:142-147 | succeeds exactly when the session holds SAMLRequest and RelayState, and copies exactly those two |
| `Processor.ParseSaml` | saml2idp/base.py:178-181 | `parse_signed` runs after `parse_request` exactly when the parsed request is signed, and any failure is the result |
| `Processor.RequestParams` | saml2idp/base.py:183-188 | the request params have exactly the keys ACS_URL, REQUEST_ID, DESTINATION and PROVIDER_NAME |
| `Processor.ParseRequest` | saml2idp/base.py:174-188 | on success only the request object and the four request params change, each param taken from the parsed request |
| `Processor.AudienceFallback` | saml2idp/base.py:114-117 | the audience is DESTINATION when truthy, otherwise PROVIDER_NAME (possibly None or empty). It is truthy exactly when one of the two is |
| `Processor.DetermineAudience` | saml2idp/base.py:110-119 | sets only the audience, and raises when there are no request params |
| `Processor.ValidateRequest` | saml2idp/base.py:214-230 | passes, with no change, exactly when the configured ACS URL equals the request's. A mismatch raises CannotHandleAssertion naming the requested URL |
| `Processor.CanHandle` | saml2idp/base.py:239-262 | a missing SAMLRequest and a parse failure become CannotHandleAssertion. It succeeds (True) exactly when every step does and the ACS URLs match. It then holds the parsed request, the email subject format, and a request that validates. Apart from the SAML request, relay state, parsed request and request params, it is the reset processor |
| `Processor.InitDeepLink` | saml2idp/base.py:279-296 | request params are exactly `{ACS_URL: config acs_url, DESTINATION: '', PROVIDER_NAME: ''}` and the relay state is the URL. Apart from those two, it is the reset processor |
| `Processor.DeepLinkValidates` | saml2idp/base.py:284-296 | after a deep link, `_validate_request` cannot raise and the audience is `''` |
| `Processor.BuildAssertion` | saml2idp/base.py:65-89 | sets a fresh id, the audience, the subject and the session index, then the assertion params as base, then system params, then request params, with later dicts winning. Nothing else changes |
| `Processor.BuildResponse` | saml2idp/base.py:91-102 | the response params are `{ISSUE_INSTANT, fresh RESPONSE_ID, RESPONSE_SIGNATURE: ''}`, then system params, then request params, with the same precedence |
| `Processor.AssertionAfterRequest` | saml2idp/base.py:74-89 | after a parsed or deep-linked request, AUDIENCE and SP_NAME_QUALIFIER equal the determined audience, ASSERTION_SIGNATURE is `''`, ISSUER is added, and every base key survives the two updates |
| `Processor.AssertionContentAfterRequest` | saml2idp/base.py:74-87 | after a parsed or deep-linked request, the assertion carries the fresh id, the user's e-mail and subject format, and the -1 h, +15 min and +8 h time strings |
| `Processor.ResponseCarriesBuiltAssertion` | saml2idp/base.py:263-270 | a failure of `_build_assertion` is the failure of `generate_response`. On success, the assertion params formatted and kept are the ones `_build_assertion` produced |
| `Processor.GenerateResponse` | saml2idp/base.py:263-276 | succeeds exactly when the assertion builds and formats, `signing` and `autosubmit` are in the IdP config, ACS_URL is in the request params and the response renders. The assertion XML is formatted from the assertion params kept. The response params are the ones `_build_response` builds, with a fresh response id. That XML and the response params are rendered into the response, whose base64 is returned with the ACS URL and relay state. Apart from the assertion XML and the response id, params, XML and base64, the returned processor is the one `_build_assertion` left |
| `Processor.ResponseReadsOnlyParams` | saml2idp/base.py:91-102 | `_build_response` reads only the system and request params: processors that agree on them get the same response params |
| `Processor.Respond` | saml2idp/base.py:155-172 | succeeds exactly when the response params can be built, `signing` and `autosubmit` are in the IdP config, ACS_URL is in the request params and the response renders. A build failure is the result. The response XML is rendered from the built response params, the assertion XML and the `signing` setting, and only the response XML and its base64 are added to the built processor. The template variables hold the base64, the request's ACS URL, the relay state and `autosubmit` |
| `Processor.ValidatedResponseGoesToConfiguredAcs` | saml2idp/base.py:166-172 | for a validated request, the response's `acs_url` is the configured ACS URL |
| `Processor.CanHandleThenRespond` | saml2idp/base.py:239-277 | after `can_handle`, the response is posted to the configured ACS URL |
| `Processor.DeepLinkThenRespond` | saml2idp/base.py:279-296 | after `init_deep_link`, the response is posted to the configured ACS URL |
| `Processor.ResetForgets` | saml2idp/base.py:190-212 | after `_reset`, two processors of the same configuration differ at most in the assertion id, audience, session index and response params and XML |
| `Processor.AssertionIgnoresLeftovers` | saml2idp/base.py:65-89 | `_build_assertion` overwrites the assertion id, audience and session index: for processors differing only in the leftovers, it fails alike, or both results differ at most in the response params and XML |
| `Processor.RespondIgnoresLeftovers` | saml2idp/base.py:91-172 | building, formatting and encoding the response overwrite the response params and XML, so processors differing only in those respond alike |
| `Processor.LeftoversNeverReachResponse` | saml2idp/base.py:263-276 | `generate_response` gives the same result for processors differing only in those leftovers, since it overwrites each before reading it |
| `Processor.CanHandleCarriesNothingOver` | saml2idp/base.py:190-196 | whatever a processor handled before, `can_handle` then `generate_response` give the same result as for a fresh processor of the same configuration |
| `Processor.DeepLinkCarriesNothingOver` | saml2idp/base.py:190-196 | the same for `init_deep_link` then `generate_response` |

## Left out

- Cryptography (M2Crypto key and certificate parsing, RSA signing, SHA-1), `codex.nice64` and UTF-8 encoding and decoding are foreign code. They are the function fields of `Provider`. `EmbeddedSignatureVerifies` assumes laws about them instead of proving them.
- `xml_templates` is not part of this model. A template object is its kind and parameters, and its `xml` and `get_xml_string()` are the function fields of `Templates`. `xml` is taken to be text.
- `Templates`: building and rendering a template is taken never to fail. Its fields are total functions, so an exception raised while building or rendering a SignedInfo or Signature template is not modelled.
- `saml2idp_metadata` is not part of this model. The four key names of the signing config are stand-ins. The proofs use only the fact that they differ.
- `RequestProcessor`, `xml_render.get_response_xml` and the subclass hook `_format_assertion` are function parameters. The base class's own `_format_assertion` (`raise NotImplemented()`, which in fact raises TypeError) is not modelled. The hook is given the assertion params only.
- `_validate_user` is a no-op in the base class, and subclass overrides are not modelled.
- `get_time_string` reads the wall clock, uses float seconds and `strftime`. It is one integer reading per build step plus an opaque formatter. `GenerateResponse` takes one clock for the assertion and one for the response, so their ISSUE_INSTANT values may differ. The five `time.time()` calls within `_build_assertion` are taken to read the same second.
- `uuid.uuid4` randomness: the UUID's 128-bit integer is an input.
- Django request and session objects are a record of the session dict, the session key and the user's e-mail.
- Logging is not modelled.
- Exception messages are not modelled. Each error carries the data its message is built from: the offending `processor` value, the missing key, the requested ACS URL, or the wrapped error.
- When a Python method raises after assigning some attributes (for example `_extract_saml_request` when only RelayState is missing), the model returns only the exception. The partially updated object is dropped.
- An attribute that was never assigned and one that holds `None` are both `None` in the model, and the model raises `NotSet` for both. Python raises AttributeError for the first. For the second it raises AttributeError on an attribute or method lookup (`self._request_params.get`, `self._request.parse_request()`, `self._django_request.user`) and TypeError on a subscript or on `dict.update(None)`.
- Python values other than `None`, `str` and `bytes` are not modelled.

=== FILE: hex.dfy ===
/** Lower-case, zero-padded hexadecimal rendering of a natural number
    (`'%0*x' % (width, u)`), which is how a UUID's `hex` property is formed,
    together with its inverse. */
module Hex {

  predicate IsHexDigit(c: char) {
    '0' <= c <= '9' || 'a' <= c <= 'f'
  }

  function Pow16(n: nat): (r: nat)
    ensures r >= 1
  {
    if n == 0 then 1 else 16 * Pow16(n - 1)
  }

  /** The lower-case digit for a value below 16. */
  function DigitChar(d: nat): (c: char)
    requires d < 16
    ensures IsHexDigit(c)
  {
    if d < 10 then ('0' as int + d) as char else ('a' as int + d - 10) as char
  }

  function DigitValue(c: char): (d: nat)
    requires IsHexDigit(c)
    ensures d < 16
  {
    if c <= '9' then c as int - '0' as int else c as int - 'a' as int + 10
  }

  /** Reading a digit back gives its value, and writing a value gives its digit. */
  lemma DigitRoundTrip(d: nat, c: char)
    requires d < 16 && IsHexDigit(c)
    ensures DigitValue(DigitChar(d)) == d
    ensures DigitChar(DigitValue(c)) == c
  {
  }

  /** Division by 16 of a number below `16 * p`. */
  lemma DivideBy16(u: nat, p: nat)
    requires u < 16 * p
    ensures u / 16 < p && u == 16 * (u / 16) + u % 16
  {
  }

  /** The last `width` hexadecimal digits of `u`, most significant first. */
  function ToHex(u: nat, width: nat): (r: string)
    ensures |r| == width
    ensures forall i :: 0 <= i < |r| ==> IsHexDigit(r[i])
  {
    if width == 0 then "" else ToHex(u / 16, width - 1) + [DigitChar(u % 16)]
  }

  /** The number a string of hexadecimal digits denotes. */
  function FromHex(s: string): (u: nat)
    requires forall i :: 0 <= i < |s| ==> IsHexDigit(s[i])
  {
    if |s| == 0 then 0 else 16 * FromHex(s[..|s| - 1]) + DigitValue(s[|s| - 1])
  }

  /** A number below `16^width` is recovered from its `width` digits. */
  lemma {:induction false} FromToHex(u: nat, width: nat)
    requires u < Pow16(width)
    ensures FromHex(ToHex(u, width)) == u
  {
    if width > 0 {
      var q, d := u / 16, u % 16;
      DivideBy16(u, Pow16(width - 1));
      FromToHex(q, width - 1);
      DigitRoundTrip(d, '0');
      var init := ToHex(q, width - 1);
      var s := init + [DigitChar(d)];
      assert ToHex(u, width) == s;
      assert s[..|s| - 1] == init;
    }
  }

  /** Every digit string denotes a number below `16^|s|` whose `|s|`-digit
      rendering is the string itself. */
  lemma {:induction false} ToFromHex(s: string)
    requires forall i :: 0 <= i < |s| ==> IsHexDigit(s[i])
    ensures FromHex(s) < Pow16(|s|)
    ensures ToHex(FromHex(s), |s|) == s
    decreases |s|
  {
    if |s| > 0 {
      var init, last := s[..|s| - 1], s[|s| - 1];
      ToFromHex(init);
      var a, d := FromHex(init), DigitValue(last);
      DigitRoundTrip(d, last);
      AppendDigit(a, d, Pow16(|init|));
      assert ToHex(FromHex(s), |s|) == ToHex(a, |init|) + [DigitChar(d)];
      assert s == init + [last];
    }
  }

  /** Appending digit `d` to the digits of `a`: dividing by 16 recovers both,
      and the bound grows by a factor of 16. */
  lemma AppendDigit(a: nat, d: nat, p: nat)
    requires d < 16 && a < p
    ensures (16 * a + d) / 16 == a && (16 * a + d) % 16 == d
    ensures 16 * a + d < 16 * p
  {
  }
}

=== FILE: processor.dfy ===
/** The base SAML 2.0 AuthnRequest-to-Response `Processor`: its construction
    from a service provider's configuration, the per-request reset, reading
    and validating the AuthnRequest, the IdP-initiated deep link, and the
    assertion and response parameter dicts. The processor's attributes are an
    immutable record; each operation returns the updated record or the
    exception it raises. Request parsing, the clock, UUIDs, XML rendering and
    base64 are inputs. */
module Processor {
  import opened Wrappers
  import opened PyValue
  import opened Hex

  const Minutes: int := 60
  const Hours: int := 60 * Minutes

  /** The NameID format every request is answered with. */
  const EmailNameIdFormat: string := "urn:oasis:names:tc:SAML:2.0:nameid-format:email"

  /** The default `processor` value looked up when the SP config has none. */
  const InvalidProcessor: string := "invalid"

  const UuidHexLength: nat := 32

  // ---------------------------------------------------------------------
  // Identifiers and time

  /** `get_random_id`: an underscore and the 32 hex digits of a UUID's
      128-bit integer. */
  function RandomId(uuidInt: nat): (r: string)
    requires uuidInt < Pow16(UuidHexLength)
    ensures |r| == 1 + UuidHexLength && r[0] == '_'
    ensures forall i :: 1 <= i < |r| ==> IsHexDigit(r[i])
  {
    "_" + ToHex(uuidInt, UuidHexLength)
  }

  /** An id never starts with a digit, and distinct UUIDs give distinct ids:
      the UUID is read back from the id. */
  lemma {:induction false} RandomIdDistinct(a: nat, b: nat)
    requires a < Pow16(UuidHexLength) && b < Pow16(UuidHexLength)
    ensures !('0' <= RandomId(a)[0] <= '9')
    ensures FromHex(RandomId(a)[1..]) == a
    ensures RandomId(a) == RandomId(b) ==> a == b
  {
    assert RandomId(a)[1..] == ToHex(a, UuidHexLength);
    assert RandomId(b)[1..] == ToHex(b, UuidHexLength);
    FromToHex(a, UuidHexLength);
    FromToHex(b, UuidHexLength);
  }

  /** A clock reading in whole seconds and the UTC formatter
      `strftime("%Y-%m-%dT%H:%M:%SZ", gmtime(t))`. */
  datatype Clock = Clock(now: int, format: int -> string)

  /** `get_time_string(delta)`. */
  function TimeString(clock: Clock, delta: int): string
  {
    clock.format(clock.now + delta)
  }

  // ---------------------------------------------------------------------
  // Collaborators and errors

  /** The parts of a Django request the processor reads. */
  datatype DjangoRequest = DjangoRequest(
    session: map<string, Value>,
    sessionKey: Value,
    userEmail: Value)

  /** The state of a `RequestProcessor` object. */
  datatype SamlRequest = SamlRequest(
    signed: bool,
    acsUrl: Value,
    requestId: Value,
    destination: Value,
    providerName: Value)

  /** The `RequestProcessor` class: its constructor and its two parse steps.
      A failure carries the text of the exception raised. */
  datatype RequestApi = RequestApi(
    load: Value -> Result<SamlRequest, string>,
    parseRequest: SamlRequest -> Result<SamlRequest, string>,
    parseSigned: SamlRequest -> Result<SamlRequest, string>)

  /** The subclass hook `_format_assertion` (from the assertion parameters),
      `xml_render.get_response_xml(params, assertion_xml, signed)` and
      `codex.nice64`. Here `nice64` is applied to the response XML, a Python
      value of whatever type `get_response_xml` returns, so it is typed on
      `Value` rather than on the bytes of `XmlSigning.Provider.nice64`. */
  datatype Rendering = Rendering(
    formatAssertion: Params -> Result<Value, string>,
    responseXml: (Params, Value, Value) -> Result<Value, string>,
    nice64: Value -> Value)

  datatype ConfigProblem = WrongProcessor(found: Value) | MissingAcsUrl

  datatype Cause =
    | NoSamlRequest(inner: Error)
    | UnparsableRequest(inner: Error)
    | AcsUrlMismatch(requested: Value)

  /** The exceptions the processor raises or lets through. */
  datatype Error =
    | ImproperlyConfigured(problem: ConfigProblem)
    | CannotHandleAssertion(cause: Cause)
    | KeyError(key: string)          // a lookup of a missing dict or session key
    | NotSet(attribute: string)      // use of an attribute that holds None
    | Raised(exc: string)            // an exception from a collaborator

  /** An exception from a collaborator, propagated unchanged. */
  function Foreign<T>(r: Result<T, string>): (e: Result<T, Error>)
    ensures r.Success? <==> e.Success?
    ensures r.Success? ==> e.value == r.value
    ensures r.Failure? ==> e.error == Raised(r.error)
  {
    r.MapFailure(exc => Raised(exc))
  }

  // ---------------------------------------------------------------------
  // The processor

  /** A processor's attributes. `None`/`NoneV` stands for Python's `None`
      and for an attribute not yet assigned. */
  datatype Processor = Processor(
    name: Value,
    config: Params,
    dottedPath: string,
    assertionParams: Option<Params>,
    assertionXml: Value,
    djangoRequest: Option<DjangoRequest>,
    relayState: Value,
    request: Option<SamlRequest>,
    requestId: Value,
    requestXml: Value,
    requestParams: Option<Params>,
    responseId: Value,
    samlRequest: Value,
    samlResponse: Value,
    subject: Value,
    subjectFormat: Value,
    systemParams: Option<Params>,
    assertionId: Value,
    audience: Value,
    sessionIndex: Value,
    responseParams: Option<Params>,
    responseXml: Value)

  /** `dotted_path`: the processor class's module and name. */
  function DottedPath(moduleName: string, className: string): (r: string)
    ensures |r| == |moduleName| + 1 + |className|
    ensures r[..|moduleName|] == moduleName && r[|moduleName|] == '.' && r[|moduleName| + 1..] == className
  {
    moduleName + "." + className
  }

  /** What construction guarantees and no operation changes. */
  predicate Configured(p: Processor) {
    && "acs_url" in p.config
    && Get(p.config, "processor", Str(InvalidProcessor)) == Str(p.dottedPath)
  }

  /** `Processor(config, name)` for the class `module.className`. */
  function New(config: Params, name: Value, moduleName: string, className: string): (r: Result<Processor, Error>)
    ensures r.Success? <==>
      Get(config, "processor", Str(InvalidProcessor)) == Str(DottedPath(moduleName, className)) && "acs_url" in config
    ensures Get(config, "processor", Str(InvalidProcessor)) != Str(DottedPath(moduleName, className)) ==>
      r == Failure(ImproperlyConfigured(WrongProcessor(Get(config, "processor", Str(InvalidProcessor)))))
    ensures r.Failure? ==> r.error.ImproperlyConfigured?
    ensures r.Success? ==>
      && Configured(r.value)
      && r.value.config == config && r.value.name == name
      && r.value.dottedPath == DottedPath(moduleName, className)
      && r.value.requestParams.None? && r.value.djangoRequest.None? && r.value.systemParams.None?
  {
    var dotted := DottedPath(moduleName, className);
    var processorPath := Get(config, "processor", Str(InvalidProcessor));
    if processorPath != Str(dotted) then
      Failure(ImproperlyConfigured(WrongProcessor(processorPath)))
    else if "acs_url" !in config then
      Failure(ImproperlyConfigured(MissingAcsUrl))
    else
      Success(Processor(name, config, dotted, None, NoneV, None, NoneV, None, NoneV, NoneV,
                        None, NoneV, NoneV, NoneV, NoneV, NoneV, None, NoneV, NoneV, NoneV, None, NoneV))
  }

  /** A config without a `processor` entry is always rejected: the default
      `'invalid'` has no dot, and a dotted path has one. */
  lemma MissingProcessorRejected(config: Params, name: Value, moduleName: string, className: string)
    requires "processor" !in config
    ensures New(config, name, moduleName, className) ==
      Failure(ImproperlyConfigured(WrongProcessor(Str(InvalidProcessor))))
  {
    var dotted := DottedPath(moduleName, className);
    assert dotted[|moduleName|] == '.';
    assert '.' !in InvalidProcessor;
    assert Str(InvalidProcessor) != Str(dotted);
  }

  /** `_reset(django_request)`: clears the per-request attributes, fixes the
      subject format and takes ISSUER from the IdP config. The assertion id,
      audience, session index and response params and XML are not touched.
      The `sp_config` argument of the source is accepted and never used. */
  function Reset(p: Processor, request: DjangoRequest, idp: Params): (r: Result<Processor, Error>)
    ensures r.Success? <==> "issuer" in idp
    ensures r.Failure? ==> r.error == KeyError("issuer")
    ensures r.Success? ==>
      var q := r.value;
      && q.name == p.name && q.config == p.config && q.dottedPath == p.dottedPath
      && q.djangoRequest == Some(request)
      && q.subjectFormat == Str(EmailNameIdFormat)
      && q.systemParams == Some(map["ISSUER" := idp["issuer"]])
      && q.assertionParams.None? && q.request.None? && q.requestParams.None?
      && q.assertionXml.NoneV? && q.relayState.NoneV? && q.requestId.NoneV? && q.requestXml.NoneV?
      && q.responseId.NoneV? && q.samlRequest.NoneV? && q.samlResponse.NoneV? && q.subject.NoneV?
      && q.assertionId == p.assertionId && q.audience == p.audience && q.sessionIndex == p.sessionIndex
      && q.responseParams == p.responseParams && q.responseXml == p.responseXml
  {
    if "issuer" !in idp then Failure(KeyError("issuer"))
    else
      Success(p.(
        assertionParams := None,
        assertionXml := NoneV,
        djangoRequest := Some(request),
        relayState := NoneV,
        request := None,
        requestId := NoneV,
        requestXml := NoneV,
        requestParams := None,
        responseId := NoneV,
        samlRequest := NoneV,
        samlResponse := NoneV,
        subject := NoneV,
        subjectFormat := Str(EmailNameIdFormat),
        systemParams := Some(map["ISSUER" := idp["issuer"]])))
  }

  /** `_extract_saml_request`: the SAMLRequest and RelayState session entries. */
  function ExtractSamlRequest(p: Processor): (r: Result<Processor, Error>)
    ensures r.Success? <==>
      p.djangoRequest.Some? && "SAMLRequest" in p.djangoRequest.value.session
      && "RelayState" in p.djangoRequest.value.session
    ensures p.djangoRequest.Some? && "SAMLRequest" !in p.djangoRequest.value.session ==>
      r == Failure(KeyError("SAMLRequest"))
    ensures r.Success? ==>
      r.value == p.(samlRequest := p.djangoRequest.value.session["SAMLRequest"],
                    relayState := p.djangoRequest.value.session["RelayState"])
  {
    match p.djangoRequest
    case None => Failure(NotSet("_django_request"))
    case Some(request) =>
      if "SAMLRequest" !in request.session then Failure(KeyError("SAMLRequest"))
      else if "RelayState" !in request.session then Failure(KeyError("RelayState"))
      else Success(p.(samlRequest := request.session["SAMLRequest"],
                      relayState := request.session["RelayState"]))
  }

  /** `parse_request()`, then `parse_signed()` when the request is signed. */
  function ParseSaml(api: RequestApi, request: SamlRequest): (r: Result<SamlRequest, string>)
    ensures r.Success? ==> api.parseRequest(request).Success?
    ensures api.parseRequest(request).Success? ==>
      var parsed := api.parseRequest(request).value;
      r == if parsed.signed then api.parseSigned(parsed) else Success(parsed)
    ensures api.parseRequest(request).Failure? ==> r == Failure(api.parseRequest(request).error)
  {
    var parsed :- api.parseRequest(request);
    if parsed.signed then api.parseSigned(parsed) else Success(parsed)
  }

  /** The request params dict built from a parsed request. */
  function RequestParams(request: SamlRequest): (r: Params)
    ensures r.Keys == {"ACS_URL", "REQUEST_ID", "DESTINATION", "PROVIDER_NAME"}
  {
    map["ACS_URL" := request.acsUrl, "REQUEST_ID" := request.requestId,
        "DESTINATION" := request.destination, "PROVIDER_NAME" := request.providerName]
  }

  /** `_parse_request`. */
  function ParseRequest(p: Processor, api: RequestApi): (r: Result<Processor, Error>)
    ensures r.Success? <==> p.request.Some? && ParseSaml(api, p.request.value).Success?
    ensures r.Success? ==>
      var parsed := ParseSaml(api, p.request.value).value;
      && r.value == p.(request := Some(parsed), requestParams := Some(RequestParams(parsed)))
      && r.value.requestParams.value["ACS_URL"] == parsed.acsUrl
      && r.value.requestParams.value["DESTINATION"] == parsed.destination
      && r.value.requestParams.value["PROVIDER_NAME"] == parsed.providerName
      && r.value.requestParams.value["REQUEST_ID"] == parsed.requestId
  {
    match p.request
    case None => Failure(NotSet("_request"))
    case Some(request) =>
      var parsed :- Foreign(ParseSaml(api, request));
      Success(p.(request := Some(parsed), requestParams := Some(RequestParams(parsed))))
  }

  /** The audience of a request params dict: DESTINATION when truthy,
      otherwise PROVIDER_NAME, which may be missing, `None` or empty. */
  function Audience(params: Params): Value
  {
    var destination := Get(params, "DESTINATION", NoneV);
    if Truthy(destination) then destination else Get(params, "PROVIDER_NAME", NoneV)
  }

  /** The audience is one of the two candidates, the destination whenever it
      is truthy, and it is truthy exactly when one of them is. */
  lemma AudienceFallback(params: Params)
    ensures var d, n := Get(params, "DESTINATION", NoneV), Get(params, "PROVIDER_NAME", NoneV);
      && (Truthy(d) ==> Audience(params) == d)
      && (!Truthy(d) ==> Audience(params) == n)
      && (Truthy(Audience(params)) <==> Truthy(d) || Truthy(n))
      && ("PROVIDER_NAME" !in params && !Truthy(d) ==> Audience(params) == NoneV)
  {
  }

  /** `_determine_audience`. */
  function DetermineAudience(p: Processor): (r: Result<Processor, Error>)
    ensures r.Success? <==> p.requestParams.Some?
    ensures r.Success? ==> r.value == p.(audience := Audience(p.requestParams.value))
  {
    match p.requestParams
    case None => Failure(NotSet("_request_params"))
    case Some(params) => Success(p.(audience := Audience(params)))
  }

  /** `_validate_request`: passes, changing nothing, exactly when the
      configured ACS URL equals the request's; a mismatch raises
      CannotHandleAssertion naming the requested URL. */
  function ValidateRequest(p: Processor): (r: Outcome<Error>)
    ensures r.Pass? <==>
      && p.requestParams.Some? && "ACS_URL" in p.requestParams.value && "acs_url" in p.config
      && p.config["acs_url"] == p.requestParams.value["ACS_URL"]
    ensures p.requestParams.Some? && "ACS_URL" in p.requestParams.value && "acs_url" in p.config
            && p.config["acs_url"] != p.requestParams.value["ACS_URL"] ==>
      r == Fail(CannotHandleAssertion(AcsUrlMismatch(p.requestParams.value["ACS_URL"])))
  {
    match p.requestParams
    case None => Fail(NotSet("_request_params"))
    case Some(params) =>
      if "ACS_URL" !in params then Fail(KeyError("ACS_URL"))
      else if "acs_url" !in p.config then Fail(KeyError("acs_url"))
      else if p.config["acs_url"] != params["ACS_URL"] then
        Fail(CannotHandleAssertion(AcsUrlMismatch(params["ACS_URL"])))
      else Pass
  }

  /** `can_handle`: reset, read the request from the session, parse it and
      validate it. Failing to read or to parse becomes CannotHandleAssertion
      wrapping the original error; on success the answer is True and the
      processor holds the parsed request. */
  function CanHandle(p: Processor, request: DjangoRequest, idp: Params, api: RequestApi): (r: Result<Processor, Error>)
    ensures "issuer" !in idp ==> r == Failure(KeyError("issuer"))
    ensures "issuer" in idp && "SAMLRequest" !in request.session ==>
      r == Failure(CannotHandleAssertion(NoSamlRequest(KeyError("SAMLRequest"))))
    ensures Configured(p) && "issuer" in idp
            && ("SAMLRequest" in request.session ==> api.load(request.session["SAMLRequest"]).Success?) ==>
      (r.Failure? ==> r.error.CannotHandleAssertion?)
    ensures r.Success? <==>
      && "issuer" in idp
      && "SAMLRequest" in request.session && "RelayState" in request.session
      && api.load(request.session["SAMLRequest"]).Success?
      && ParseSaml(api, api.load(request.session["SAMLRequest"]).value).Success?
      && "acs_url" in p.config
      && p.config["acs_url"] == ParseSaml(api, api.load(request.session["SAMLRequest"]).value).value.acsUrl
    ensures r.Success? ==>
      var q := r.value;
      var parsed := ParseSaml(api, api.load(request.session["SAMLRequest"]).value).value;
      && q.config == p.config && q.name == p.name && q.dottedPath == p.dottedPath
      && q.subjectFormat == Str(EmailNameIdFormat)
      && q.systemParams == Some(map["ISSUER" := idp["issuer"]])
      && q.djangoRequest == Some(request)
      && q.samlRequest == request.session["SAMLRequest"]
      && q.relayState == request.session["RelayState"]
      && q.request == Some(parsed)
      && q.requestParams == Some(RequestParams(parsed))
      && ValidateRequest(q) == Pass
      && q == Reset(p, request, idp).value.(
           samlRequest := request.session["SAMLRequest"], relayState := request.session["RelayState"],
           request := Some(parsed), requestParams := Some(RequestParams(parsed)))
  {
    var cleared :- Reset(p, request, idp);
    var extracted := ExtractSamlRequest(cleared);
    if extracted.Failure? then Failure(CannotHandleAssertion(NoSamlRequest(extracted.error)))
    else
      var loaded :- Foreign(api.load(extracted.value.samlRequest));
      var parsed := ParseRequest(extracted.value.(request := Some(loaded)), api);
      if parsed.Failure? then Failure(CannotHandleAssertion(UnparsableRequest(parsed.error)))
      else match ValidateRequest(parsed.value)
        case Fail(e) => Failure(e)
        case Pass => Success(parsed.value)
  }

  /** `init_deep_link(request, sp_config, url)`: reset, then made-up request
      params with the configured ACS URL and blank DESTINATION and
      PROVIDER_NAME, and the relay state set to the deep-linked URL. */
  function InitDeepLink(p: Processor, request: DjangoRequest, idp: Params, url: Value): (r: Result<Processor, Error>)
    ensures r.Success? <==> "issuer" in idp && "acs_url" in p.config
    ensures r.Success? ==>
      var q := r.value;
      && q.config == p.config && q.name == p.name && q.dottedPath == p.dottedPath
      && q.requestParams == Some(map["ACS_URL" := p.config["acs_url"],
                                     "DESTINATION" := Str(""), "PROVIDER_NAME" := Str("")])
      && q.relayState == url
      && q.subjectFormat == Str(EmailNameIdFormat)
      && q.systemParams == Some(map["ISSUER" := idp["issuer"]])
      && q.djangoRequest == Some(request)
      && q == Reset(p, request, idp).value.(requestParams := q.requestParams, relayState := url)
  {
    var cleared :- Reset(p, request, idp);
    if "acs_url" !in cleared.config then Failure(KeyError("acs_url"))
    else
      Success(cleared.(
        requestParams := Some(map["ACS_URL" := cleared.config["acs_url"],
                                  "DESTINATION" := Str(""), "PROVIDER_NAME" := Str("")]),
        relayState := url))
  }

  /** Whenever `init_deep_link` succeeds (for a constructed processor,
      whenever the IdP has an issuer), the made-up request validates and its
      audience is `''`. */
  lemma DeepLinkValidates(p: Processor, request: DjangoRequest, idp: Params, url: Value)
    requires InitDeepLink(p, request, idp, url).Success?
    ensures ValidateRequest(InitDeepLink(p, request, idp, url).value) == Pass
    ensures DetermineAudience(InitDeepLink(p, request, idp, url).value).Success?
    ensures DetermineAudience(InitDeepLink(p, request, idp, url).value).value.audience == Str("")
  {
  }

  // ---------------------------------------------------------------------
  // Assertion and response parameters

  /** `r` is `base`, then `d.update(system)`, then `d.update(request)`: the
      later dict wins on every key they share. */
  ghost predicate Layered(r: Params, base: Params, system: Params, request: Params) {
    && r.Keys == base.Keys + system.Keys + request.Keys
    && forall k :: k in r ==>
         r[k] == if k in request then request[k] else if k in system then system[k] else base[k]
  }

  const AssertionKeys: set<string> := {
    "ASSERTION_ID", "ASSERTION_SIGNATURE", "AUDIENCE", "AUTH_INSTANT", "ISSUE_INSTANT",
    "NOT_BEFORE", "NOT_ON_OR_AFTER", "SESSION_INDEX", "SESSION_NOT_ON_OR_AFTER",
    "SP_NAME_QUALIFIER", "SUBJECT", "SUBJECT_FORMAT"}

  /** The literal dict `_build_assertion` starts from. */
  function AssertionBase(p: Processor, clock: Clock): (r: Params)
    ensures r.Keys == AssertionKeys
  {
    map[
      "ASSERTION_ID" := p.assertionId,
      "ASSERTION_SIGNATURE" := Str(""),
      "AUDIENCE" := p.audience,
      "AUTH_INSTANT" := Str(TimeString(clock, 0)),
      "ISSUE_INSTANT" := Str(TimeString(clock, 0)),
      "NOT_BEFORE" := Str(TimeString(clock, -1 * Hours)),
      "NOT_ON_OR_AFTER" := Str(TimeString(clock, 15 * Minutes)),
      "SESSION_INDEX" := p.sessionIndex,
      "SESSION_NOT_ON_OR_AFTER" := Str(TimeString(clock, 8 * Hours)),
      "SP_NAME_QUALIFIER" := p.audience,
      "SUBJECT" := p.subject,
      "SUBJECT_FORMAT" := p.subjectFormat]
  }

  /** `_build_assertion`: a cleared assertion id, the audience, the user's
      e-mail as subject and the session key as session index, then the
      assertion params layered as base, system params, request params. */
  function BuildAssertion(p: Processor, assertionUuid: nat, clock: Clock): (r: Result<Processor, Error>)
    requires assertionUuid < Pow16(UuidHexLength)
    ensures r.Success? <==> p.requestParams.Some? && p.djangoRequest.Some? && p.systemParams.Some?
    ensures r.Success? ==>
      var q := r.value;
      && q.assertionId == Str(RandomId(assertionUuid))
      && q.audience == Audience(p.requestParams.value)
      && q.subject == p.djangoRequest.value.userEmail
      && q.sessionIndex == p.djangoRequest.value.sessionKey
      && q.assertionParams.Some?
      && Layered(q.assertionParams.value, AssertionBase(q, clock), p.systemParams.value, p.requestParams.value)
      && q == p.(assertionId := q.assertionId, audience := q.audience, subject := q.subject,
                 sessionIndex := q.sessionIndex, assertionParams := q.assertionParams)
  {
    var withId := p.(assertionId := Str(RandomId(assertionUuid)));
    var withAudience :- DetermineAudience(withId);
    match withAudience.djangoRequest
    case None => Failure(NotSet("_django_request"))
    case Some(request) =>
      var determined := withAudience.(subject := request.userEmail, sessionIndex := request.sessionKey);
      match determined.systemParams
      case None => Failure(NotSet("_system_params"))
      case Some(system) =>
        var params := Update(Update(AssertionBase(determined, clock), system), determined.requestParams.value);
        Success(determined.(assertionParams := Some(params)))
  }

  /** `_build_response`: a cleared response id, then the response params
      layered as base, system params, request params. */
  function BuildResponse(p: Processor, responseUuid: nat, clock: Clock): (r: Result<Processor, Error>)
    requires responseUuid < Pow16(UuidHexLength)
    ensures r.Success? <==> p.systemParams.Some? && p.requestParams.Some?
    ensures r.Success? ==>
      var q := r.value;
      var base := map["ISSUE_INSTANT" := Str(TimeString(clock, 0)),
                      "RESPONSE_ID" := Str(RandomId(responseUuid)),
                      "RESPONSE_SIGNATURE" := Str("")];
      && q.responseId == Str(RandomId(responseUuid))
      && q.responseParams.Some?
      && Layered(q.responseParams.value, base, p.systemParams.value, p.requestParams.value)
      && q == p.(responseId := q.responseId, responseParams := q.responseParams)
  {
    var id := Str(RandomId(responseUuid));
    match (p.systemParams, p.requestParams)
    case (None, _) => Failure(NotSet("_system_params"))
    case (_, None) => Failure(NotSet("_request_params"))
    case (Some(system), Some(request)) =>
      var base := map["ISSUE_INSTANT" := Str(TimeString(clock, 0)),
                      "RESPONSE_ID" := id,
                      "RESPONSE_SIGNATURE" := Str("")];
      Success(p.(responseId := id, responseParams := Some(Update(Update(base, system), request))))
  }

  /** The request params `can_handle` or `init_deep_link` leave behind never
      override a base key: after either, the assertion's AUDIENCE and
      SP_NAME_QUALIFIER are the determined audience, its signature is `''`,
      and ISSUER and the request params are added. */
  lemma {:induction false} AssertionAfterRequest(p: Processor, assertionUuid: nat, clock: Clock)
    requires assertionUuid < Pow16(UuidHexLength)
    requires p.djangoRequest.Some? && p.systemParams.Some? && p.systemParams.value.Keys == {"ISSUER"}
    requires p.requestParams.Some? && p.requestParams.value.Keys <= {"ACS_URL", "REQUEST_ID", "DESTINATION", "PROVIDER_NAME"}
    ensures BuildAssertion(p, assertionUuid, clock).Success?
    ensures var a := BuildAssertion(p, assertionUuid, clock).value.assertionParams.value;
      && a.Keys == AssertionKeys + {"ISSUER"} + p.requestParams.value.Keys
      && a["AUDIENCE"] == Audience(p.requestParams.value)
      && a["SP_NAME_QUALIFIER"] == Audience(p.requestParams.value)
      && a["ASSERTION_SIGNATURE"] == Str("")
      && a["ISSUER"] == p.systemParams.value["ISSUER"]
  {
    var q := BuildAssertion(p, assertionUuid, clock).value;
    AssertionValues(q, clock, p.systemParams.value, p.requestParams.value);
  }

  /** Under the same conditions the assertion carries the fresh id, the
      user's e-mail in the email NameID format, and a validity window from
      one hour before to fifteen minutes after now, with the session valid
      for eight hours. */
  lemma {:induction false} AssertionContentAfterRequest(p: Processor, assertionUuid: nat, clock: Clock)
    requires assertionUuid < Pow16(UuidHexLength)
    requires p.djangoRequest.Some? && p.systemParams.Some? && p.systemParams.value.Keys == {"ISSUER"}
    requires p.requestParams.Some? && p.requestParams.value.Keys <= {"ACS_URL", "REQUEST_ID", "DESTINATION", "PROVIDER_NAME"}
    ensures BuildAssertion(p, assertionUuid, clock).Success?
    ensures var a := BuildAssertion(p, assertionUuid, clock).value.assertionParams.value;
      && a["ASSERTION_ID"] == Str(RandomId(assertionUuid))
      && a["SUBJECT"] == p.djangoRequest.value.userEmail
      && a["SUBJECT_FORMAT"] == p.subjectFormat
      && a["NOT_BEFORE"] == Str(TimeString(clock, -3600))
      && a["NOT_ON_OR_AFTER"] == Str(TimeString(clock, 900))
      && a["SESSION_NOT_ON_OR_AFTER"] == Str(TimeString(clock, 28800))
  {
    var q := BuildAssertion(p, assertionUuid, clock).value;
    AssertionValues(q, clock, p.systemParams.value, p.requestParams.value);
  }

  /** The values the assertion params take from the base dict when the later
      dicts have none of its keys. */
  lemma AssertionValues(q: Processor, clock: Clock, system: Params, request: Params)
    requires q.assertionParams.Some?
    requires Layered(q.assertionParams.value, AssertionBase(q, clock), system, request)
    requires system.Keys == {"ISSUER"}
    requires request.Keys <= {"ACS_URL", "REQUEST_ID", "DESTINATION", "PROVIDER_NAME"}
    ensures var a := q.assertionParams.value;
      && a.Keys == AssertionKeys + {"ISSUER"} + request.Keys
      && a["AUDIENCE"] == q.audience && a["SP_NAME_QUALIFIER"] == q.audience
      && a["ASSERTION_SIGNATURE"] == Str("")
      && a["ASSERTION_ID"] == q.assertionId
      && a["SUBJECT"] == q.subject && a["SUBJECT_FORMAT"] == q.subjectFormat
      && a["ISSUER"] == system["ISSUER"]
      && a["NOT_BEFORE"] == Str(TimeString(clock, -3600))
      && a["NOT_ON_OR_AFTER"] == Str(TimeString(clock, 900))
      && a["SESSION_NOT_ON_OR_AFTER"] == Str(TimeString(clock, 28800))
  {
    var base := AssertionBase(q, clock);
    BaseSurvives(q.assertionParams.value, base, system, request);
    BaseIdentityValues(q, clock);
    BaseTimeValues(q, clock);
  }

  /** The identity entries of the base assertion dict. */
  lemma BaseIdentityValues(q: Processor, clock: Clock)
    ensures var base := AssertionBase(q, clock);
      && base["AUDIENCE"] == q.audience && base["SP_NAME_QUALIFIER"] == q.audience
      && base["ASSERTION_SIGNATURE"] == Str("")
      && base["ASSERTION_ID"] == q.assertionId
      && base["SUBJECT"] == q.subject && base["SUBJECT_FORMAT"] == q.subjectFormat
  {
  }

  /** The validity-window entries of the base assertion dict. */
  lemma BaseTimeValues(q: Processor, clock: Clock)
    ensures var base := AssertionBase(q, clock);
      && base["NOT_BEFORE"] == Str(TimeString(clock, -3600))
      && base["NOT_ON_OR_AFTER"] == Str(TimeString(clock, 900))
      && base["SESSION_NOT_ON_OR_AFTER"] == Str(TimeString(clock, 28800))
  {
  }

  /** Keys of the base dict that neither later dict has keep their base value. */
  lemma BaseSurvives(a: Params, base: Params, system: Params, request: Params)
    requires Layered(a, base, system, request)
    requires system.Keys == {"ISSUER"}
    requires request.Keys <= {"ACS_URL", "REQUEST_ID", "DESTINATION", "PROVIDER_NAME"}
    requires base.Keys == AssertionKeys
    ensures a.Keys == AssertionKeys + {"ISSUER"} + request.Keys
    ensures forall k :: k in AssertionKeys ==> a[k] == base[k]
    ensures a["ISSUER"] == system["ISSUER"]
  {
    forall k | k in AssertionKeys
      ensures a[k] == base[k]
    {
      assert k !in system && k !in request;
    }
  }

  // ---------------------------------------------------------------------
  // Generating the response

  /** `generate_response`: validate the user (a no-op here), build and format
      the assertion, then respond. The assertion and the response each read
      the clock once. It succeeds exactly when the assertion can be built and
      formatted, the IdP config has `signing` and `autosubmit`, the request
      params have ACS_URL and the response renders; the response params
      rendered are the ones `_build_response` builds. */
  function GenerateResponse(p: Processor, idp: Params, rendering: Rendering,
                            assertionUuid: nat, responseUuid: nat,
                            assertionClock: Clock, responseClock: Clock): (r: Result<(Processor, Params), Error>)
    requires assertionUuid < Pow16(UuidHexLength) && responseUuid < Pow16(UuidHexLength)
    ensures r.Success? <==>
      && BuildAssertion(p, assertionUuid, assertionClock).Success?
      && var params := BuildAssertion(p, assertionUuid, assertionClock).value.assertionParams.value;
         && rendering.formatAssertion(params).Success?
         && "signing" in idp && "autosubmit" in idp && "ACS_URL" in p.requestParams.value
         && rendering.responseXml(BuildResponse(p, responseUuid, responseClock).value.responseParams.value,
                                  rendering.formatAssertion(params).value, idp["signing"]).Success?
    ensures r.Success? ==>
      && r.value.0.assertionParams.Some?
      && rendering.formatAssertion(r.value.0.assertionParams.value) == Success(r.value.0.assertionXml)
      && Responded(r.value.0, r.value.1, p, idp, rendering)
      && r.value.0.responseId == Str(RandomId(responseUuid))
      && r.value.0.responseParams == BuildResponse(p, responseUuid, responseClock).value.responseParams
    ensures r.Success? ==>
      r.value.0 == BuildAssertion(p, assertionUuid, assertionClock).value.(
        assertionXml := r.value.0.assertionXml, responseId := r.value.0.responseId,
        responseParams := r.value.0.responseParams, responseXml := r.value.0.responseXml,
        samlResponse := r.value.0.samlResponse)
  {
    var built :- BuildAssertion(p, assertionUuid, assertionClock);
    var assertionXml :- Foreign(rendering.formatAssertion(built.assertionParams.value));
    ResponseReadsOnlyParams(built.(assertionXml := assertionXml), p, responseUuid, responseClock);
    Respond(built.(assertionXml := assertionXml), idp, rendering, responseUuid, responseClock)
  }

  /** `_build_response` reads only the system and request params. */
  lemma ResponseReadsOnlyParams(a: Processor, b: Processor, responseUuid: nat, clock: Clock)
    requires responseUuid < Pow16(UuidHexLength)
    requires a.systemParams == b.systemParams && a.requestParams == b.requestParams
    ensures BuildResponse(a, responseUuid, clock).Success? <==> BuildResponse(b, responseUuid, clock).Success?
    ensures BuildResponse(a, responseUuid, clock).Success? ==>
      BuildResponse(a, responseUuid, clock).value.responseParams == BuildResponse(b, responseUuid, clock).value.responseParams
  {
  }

  /** A failure of `_build_assertion` is the failure of `generate_response`;
      otherwise the assertion params it formats and leaves behind are those
      `_build_assertion` produced. */
  lemma {:induction false} ResponseCarriesBuiltAssertion(p: Processor, idp: Params, rendering: Rendering,
                                                         assertionUuid: nat, responseUuid: nat,
                                                         assertionClock: Clock, responseClock: Clock)
    requires assertionUuid < Pow16(UuidHexLength) && responseUuid < Pow16(UuidHexLength)
    ensures BuildAssertion(p, assertionUuid, assertionClock).Failure? ==>
      GenerateResponse(p, idp, rendering, assertionUuid, responseUuid, assertionClock, responseClock)
        == Failure(BuildAssertion(p, assertionUuid, assertionClock).error)
    ensures var r := GenerateResponse(p, idp, rendering, assertionUuid, responseUuid, assertionClock, responseClock);
      r.Success? ==>
        && BuildAssertion(p, assertionUuid, assertionClock).Success?
        && r.value.0.assertionParams == BuildAssertion(p, assertionUuid, assertionClock).value.assertionParams
  {
  }

  /** What responding leaves behind: the response XML rendered from the
      response params and the assertion XML, its base64 in the processor and
      in the template variables, together with the request's ACS URL and
      relay state. */
  ghost predicate Responded(q: Processor, vars: Params, p: Processor, idp: Params, rendering: Rendering) {
    && vars.Keys == {"acs_url", "saml_response", "relay_state", "autosubmit"}
    && p.requestParams.Some? && "ACS_URL" in p.requestParams.value
    && vars["acs_url"] == p.requestParams.value["ACS_URL"]
    && vars["relay_state"] == p.relayState
    && "autosubmit" in idp && vars["autosubmit"] == idp["autosubmit"]
    && q.config == p.config && q.requestParams == p.requestParams
    && q.responseParams.Some? && "RESPONSE_SIGNATURE" in q.responseParams.value
    && "signing" in idp
    && rendering.responseXml(q.responseParams.value, q.assertionXml, idp["signing"]) == Success(q.responseXml)
    && vars["saml_response"] == rendering.nice64(q.responseXml) == q.samlResponse
  }

  /** The second half of `generate_response`: build and format the response,
      encode it and return the template variables. It succeeds exactly when
      the response params can be built, the IdP config has `signing` and
      `autosubmit`, the request params have ACS_URL and the response renders.
      Apart from the response XML and its base64, the processor is the one
      `_build_response` left. */
  function Respond(p: Processor, idp: Params, rendering: Rendering,
                   responseUuid: nat, clock: Clock): (r: Result<(Processor, Params), Error>)
    requires responseUuid < Pow16(UuidHexLength)
    ensures r.Success? <==>
      && p.systemParams.Some? && p.requestParams.Some?
      && "signing" in idp && "autosubmit" in idp && "ACS_URL" in p.requestParams.value
      && rendering.responseXml(BuildResponse(p, responseUuid, clock).value.responseParams.value,
                               p.assertionXml, idp["signing"]).Success?
    ensures BuildResponse(p, responseUuid, clock).Failure? ==>
      r == Failure(BuildResponse(p, responseUuid, clock).error)
    ensures r.Success? ==>
      && Responded(r.value.0, r.value.1, p, idp, rendering)
      && r.value.0 == BuildResponse(p, responseUuid, clock).value.(
           responseXml := r.value.0.responseXml, samlResponse := r.value.0.samlResponse)
      && r.value.0.assertionParams == p.assertionParams
      && r.value.0.assertionXml == p.assertionXml
  {
    var responded :- BuildResponse(p, responseUuid, clock);
    if "signing" !in idp then Failure(KeyError("signing"))
    else
      var responseXml :- Foreign(rendering.responseXml(responded.responseParams.value, responded.assertionXml, idp["signing"]));
      var encoded := responded.(responseXml := responseXml, samlResponse := rendering.nice64(responseXml));
      if "ACS_URL" !in encoded.requestParams.value then Failure(KeyError("ACS_URL"))
      else if "autosubmit" !in idp then Failure(KeyError("autosubmit"))
      else
        Success((encoded, map[
          "acs_url" := encoded.requestParams.value["ACS_URL"],
          "saml_response" := encoded.samlResponse,
          "relay_state" := encoded.relayState,
          "autosubmit" := idp["autosubmit"]]))
  }

  /** A response generated for a processor whose request validated is posted
      to the ACS URL of the processor's configuration. */
  lemma {:induction false} ValidatedResponseGoesToConfiguredAcs(p: Processor, idp: Params, rendering: Rendering,
                                             assertionUuid: nat, responseUuid: nat,
                                             assertionClock: Clock, responseClock: Clock)
    requires assertionUuid < Pow16(UuidHexLength) && responseUuid < Pow16(UuidHexLength)
    requires ValidateRequest(p) == Pass
    ensures BuildAssertion(p, assertionUuid, assertionClock).Failure? ==>
      GenerateResponse(p, idp, rendering, assertionUuid, responseUuid, assertionClock, responseClock)
        == Failure(BuildAssertion(p, assertionUuid, assertionClock).error)
    ensures var r := GenerateResponse(p, idp, rendering, assertionUuid, responseUuid, assertionClock, responseClock);
      r.Success? ==> r.value.1["acs_url"] == p.config["acs_url"]
  {
  }

  /** SP-initiated: after `can_handle`, the response goes to the configured
      ACS URL, never to one the request named otherwise. */
  lemma {:induction false} CanHandleThenRespond(p0: Processor, request: DjangoRequest, idp: Params, api: RequestApi,
                             rendering: Rendering, assertionUuid: nat, responseUuid: nat,
                             assertionClock: Clock, responseClock: Clock)
    requires assertionUuid < Pow16(UuidHexLength) && responseUuid < Pow16(UuidHexLength)
    ensures var ready := CanHandle(p0, request, idp, api);
      ready.Success? ==>
        var r := GenerateResponse(ready.value, idp, rendering, assertionUuid, responseUuid, assertionClock, responseClock);
        r.Success? ==> r.value.1["acs_url"] == p0.config["acs_url"]
  {
  }

  /** IdP-initiated: after `init_deep_link`, the response goes to the
      configured ACS URL. */
  lemma {:induction false} DeepLinkThenRespond(p0: Processor, request: DjangoRequest, idp: Params, url: Value,
                            rendering: Rendering, assertionUuid: nat, responseUuid: nat,
                            assertionClock: Clock, responseClock: Clock)
    requires assertionUuid < Pow16(UuidHexLength) && responseUuid < Pow16(UuidHexLength)
    ensures var ready := InitDeepLink(p0, request, idp, url);
      ready.Success? ==>
        var r := GenerateResponse(ready.value, idp, rendering, assertionUuid, responseUuid, assertionClock, responseClock);
        r.Success? ==> r.value.1["acs_url"] == p0.config["acs_url"]
  {
  }

  // ---------------------------------------------------------------------
  // Nothing carries over from the last authentication

  /** `a` and `b` differ at most in the attributes `_reset` leaves alone:
      the assertion id, the audience, the session index and the response
      params and XML. */
  predicate SameButLeftovers(a: Processor, b: Processor) {
    a.(assertionId := b.assertionId, audience := b.audience, sessionIndex := b.sessionIndex,
       responseParams := b.responseParams, responseXml := b.responseXml) == b
  }

  /** After `_reset`, two processors of the same configuration differ at
      most in the leftovers. */
  lemma ResetForgets(p1: Processor, p2: Processor, request: DjangoRequest, idp: Params)
    requires p1.name == p2.name && p1.config == p2.config && p1.dottedPath == p2.dottedPath
    ensures Reset(p1, request, idp).Success? <==> Reset(p2, request, idp).Success?
    ensures Reset(p1, request, idp).Success? ==>
      SameButLeftovers(Reset(p1, request, idp).value, Reset(p2, request, idp).value)
  {
  }

  /** The leftovers never reach the response: `generate_response` overwrites
      each of them before reading it. */
  lemma {:induction false} LeftoversNeverReachResponse(a: Processor, b: Processor, idp: Params, rendering: Rendering,
                                                       assertionUuid: nat, responseUuid: nat,
                                                       assertionClock: Clock, responseClock: Clock)
    requires assertionUuid < Pow16(UuidHexLength) && responseUuid < Pow16(UuidHexLength)
    requires SameButLeftovers(a, b)
    ensures GenerateResponse(a, idp, rendering, assertionUuid, responseUuid, assertionClock, responseClock)
         == GenerateResponse(b, idp, rendering, assertionUuid, responseUuid, assertionClock, responseClock)
  {
    AssertionIgnoresLeftovers(a, b, assertionUuid, assertionClock);
    if BuildAssertion(a, assertionUuid, assertionClock).Success? {
      var builtA := BuildAssertion(a, assertionUuid, assertionClock).value;
      var builtB := BuildAssertion(b, assertionUuid, assertionClock).value;
      var formatted := rendering.formatAssertion(builtA.assertionParams.value);
      if formatted.Success? {
        RespondIgnoresLeftovers(builtA.(assertionXml := formatted.value), builtB.(assertionXml := formatted.value),
                                idp, rendering, responseUuid, responseClock);
      }
    }
  }

  /** `a` and `b` differ at most in the response params and XML. */
  predicate SameResponseButLeftovers(a: Processor, b: Processor) {
    a.(responseParams := b.responseParams, responseXml := b.responseXml) == b
  }

  /** `_build_assertion` overwrites the assertion id, audience and session
      index; only the response leftovers may still differ. */
  lemma AssertionIgnoresLeftovers(a: Processor, b: Processor, assertionUuid: nat, clock: Clock)
    requires assertionUuid < Pow16(UuidHexLength)
    requires SameButLeftovers(a, b)
    ensures BuildAssertion(a, assertionUuid, clock).Failure? ==>
      BuildAssertion(a, assertionUuid, clock) == BuildAssertion(b, assertionUuid, clock)
    ensures BuildAssertion(a, assertionUuid, clock).Success? ==>
      && BuildAssertion(b, assertionUuid, clock).Success?
      && SameResponseButLeftovers(BuildAssertion(a, assertionUuid, clock).value, BuildAssertion(b, assertionUuid, clock).value)
  {
  }

  /** Responding overwrites the response params and XML, so they never
      reach the result. */
  lemma RespondIgnoresLeftovers(a: Processor, b: Processor, idp: Params, rendering: Rendering,
                                responseUuid: nat, clock: Clock)
    requires responseUuid < Pow16(UuidHexLength)
    requires SameResponseButLeftovers(a, b)
    ensures Respond(a, idp, rendering, responseUuid, clock) == Respond(b, idp, rendering, responseUuid, clock)
  {
  }

  /** SP-initiated: whatever a processor of a given configuration handled
      before, `can_handle` then `generate_response` give the same answer. */
  lemma {:induction false} CanHandleCarriesNothingOver(p1: Processor, p2: Processor, request: DjangoRequest,
                                    idp: Params, api: RequestApi, rendering: Rendering,
                                    assertionUuid: nat, responseUuid: nat,
                                    assertionClock: Clock, responseClock: Clock)
    requires assertionUuid < Pow16(UuidHexLength) && responseUuid < Pow16(UuidHexLength)
    requires p1.name == p2.name && p1.config == p2.config && p1.dottedPath == p2.dottedPath
    ensures CanHandle(p1, request, idp, api).Success? <==> CanHandle(p2, request, idp, api).Success?
    ensures CanHandle(p1, request, idp, api).Success? ==>
      GenerateResponse(CanHandle(p1, request, idp, api).value, idp, rendering,
                       assertionUuid, responseUuid, assertionClock, responseClock)
      == GenerateResponse(CanHandle(p2, request, idp, api).value, idp, rendering,
                          assertionUuid, responseUuid, assertionClock, responseClock)
  {
    ResetForgets(p1, p2, request, idp);
    if CanHandle(p1, request, idp, api).Success? {
      LeftoversNeverReachResponse(CanHandle(p1, request, idp, api).value, CanHandle(p2, request, idp, api).value,
                                  idp, rendering, assertionUuid, responseUuid, assertionClock, responseClock);
    }
  }

  /** IdP-initiated: the same for `init_deep_link`. */
  lemma {:induction false} DeepLinkCarriesNothingOver(p1: Processor, p2: Processor, request: DjangoRequest,
                                   idp: Params, url: Value, rendering: Rendering,
                                   assertionUuid: nat, responseUuid: nat,
                                   assertionClock: Clock, responseClock: Clock)
    requires assertionUuid < Pow16(UuidHexLength) && responseUuid < Pow16(UuidHexLength)
    requires p1.name == p2.name && p1.config == p2.config && p1.dottedPath == p2.dottedPath
    ensures InitDeepLink(p1, request, idp, url).Success? <==> InitDeepLink(p2, request, idp, url).Success?
    ensures InitDeepLink(p1, request, idp, url).Success? ==>
      GenerateResponse(InitDeepLink(p1, request, idp, url).value, idp, rendering,
                       assertionUuid, responseUuid, assertionClock, responseClock)
      == GenerateResponse(InitDeepLink(p2, request, idp, url).value, idp, rendering,
                          assertionUuid, responseUuid, assertionClock, responseClock)
  {
    ResetForgets(p1, p2, request, idp);
    if InitDeepLink(p1, request, idp, url).Success? {
      LeftoversNeverReachResponse(InitDeepLink(p1, request, idp, url).value, InitDeepLink(p2, request, idp, url).value,
                                  idp, rendering, assertionUuid, responseUuid, assertionClock, responseClock);
    }
  }
}

=== FILE: pyseq.dfy ===
/** Python's `str.split(sep)` with an explicit one-character separator,
    `''.join(...)` and the list slice `xs[start:stop]`, with the lemmas that
    relate them. */
module PySeq {

  /** `s.split(sep)`: the pieces between separators, an empty piece wherever
      two separators touch or one sits at either end, and `['']` for `''`. */
  function Split(s: string, sep: char): (r: seq<string>)
    ensures |r| >= 1
    ensures forall i :: 0 <= i < |r| ==> sep !in r[i]
    decreases |s|
  {
    if |s| == 0 then [""]
    else if s[0] == sep then [""] + Split(s[1..], sep)
    else
      var rest := Split(s[1..], sep);
      [[s[0]] + rest[0]] + rest[1..]
  }

  /** `sep.join(pieces)` for a non-empty list. */
  function JoinWith(pieces: seq<string>, sep: char): string
    requires |pieces| >= 1
  {
    if |pieces| == 1 then pieces[0]
    else pieces[0] + [sep] + JoinWith(pieces[1..], sep)
  }

  /** `''.join(pieces)`. */
  function Concat(pieces: seq<string>): string
  {
    if |pieces| == 0 then "" else pieces[0] + Concat(pieces[1..])
  }

  /** Every line followed by a newline, as in the text of a PEM file. */
  function Terminated(lines: seq<string>): string
  {
    if |lines| == 0 then "" else lines[0] + "\n" + Terminated(lines[1..])
  }

  /** Python's normalisation of a slice bound against a list of length `n`:
      a negative bound counts from the end, and the result is clamped to `[0, n]`. */
  function SliceBound(i: int, n: nat): (r: nat)
    ensures r <= n
    ensures 0 <= i <= n ==> r == i
    ensures -(n as int) <= i < 0 ==> r == n + i
    ensures i > n ==> r == n
    ensures i < -(n as int) ==> r == 0
  {
    if i < 0 then (if i + n < 0 then 0 else i + n)
    else if i > n then n
    else i
  }

  /** `xs[start:stop]` with Python's semantics for any integer bounds. */
  function Slice<T>(xs: seq<T>, start: int, stop: int): (r: seq<T>)
    ensures SliceBound(start, |xs|) + |r| <= |xs|
    ensures |r| == if SliceBound(start, |xs|) < SliceBound(stop, |xs|)
                   then SliceBound(stop, |xs|) - SliceBound(start, |xs|) else 0
    ensures forall i :: 0 <= i < |r| ==> r[i] == xs[SliceBound(start, |xs|) + i]
  {
    var lo := SliceBound(start, |xs|);
    var hi := SliceBound(stop, |xs|);
    if lo < hi then xs[lo..hi] else []
  }

  /** `xs[1:-2]` keeps the elements at indices 1 through n-3, and nothing when
      the list has three elements or fewer. */
  lemma SliceDropsFirstAndLastTwo<T>(xs: seq<T>)
    ensures |xs| >= 3 ==> Slice(xs, 1, -2) == xs[1..|xs| - 2]
    ensures |xs| <= 3 ==> Slice(xs, 1, -2) == []
  {
  }

  /** Splitting and joining with the same separator gives back the string. */
  lemma {:induction false} JoinSplit(s: string, sep: char)
    ensures JoinWith(Split(s, sep), sep) == s
    decreases |s|
  {
    if |s| == 0 {
    } else if s[0] == sep {
      JoinSplit(s[1..], sep);
      assert s == [sep] + s[1..];
    } else {
      var rest := Split(s[1..], sep);
      JoinSplit(s[1..], sep);
      if |rest| == 1 {
        assert s == [s[0]] + s[1..];
      } else {
        var tail := JoinWith(rest[1..], sep);
        assert JoinWith(rest, sep) == rest[0] + [sep] + tail;
        assert Split(s, sep) == [[s[0]] + rest[0]] + rest[1..];
        assert JoinWith(Split(s, sep), sep) == [s[0]] + rest[0] + [sep] + tail;
        assert s == [s[0]] + s[1..];
      }
    }
  }

  /** A prefix without the separator extends the first piece of what follows. */
  lemma {:induction false} SplitPrefix(a: string, t: string, sep: char)
    requires sep !in a
    ensures Split(a + t, sep) == [a + Split(t, sep)[0]] + Split(t, sep)[1..]
    decreases |a|
  {
    if |a| == 0 {
      var r := Split(t, sep);
      assert a + t == t && a + r[0] == r[0];
      assert r == [r[0]] + r[1..];
    } else {
      var s := a + t;
      assert s[0] == a[0];
      assert s[1..] == a[1..] + t;
      SplitPrefix(a[1..], t, sep);
      assert [a[0]] + (a[1..] + Split(t, sep)[0]) == a + Split(t, sep)[0];
    }
  }

  /** Joining pieces that contain no separator and splitting again gives back
      the pieces: the converse of `JoinSplit`. */
  lemma {:induction false} SplitJoin(pieces: seq<string>, sep: char)
    requires |pieces| >= 1
    requires forall i :: 0 <= i < |pieces| ==> sep !in pieces[i]
    ensures Split(JoinWith(pieces, sep), sep) == pieces
    decreases |pieces|
  {
    if |pieces| == 1 {
      SplitPrefix(pieces[0], "", sep);
      assert pieces[0] + "" == pieces[0];
    } else {
      var rest := JoinWith(pieces[1..], sep);
      SplitJoin(pieces[1..], sep);
      SplitPrefix(pieces[0], [sep] + rest, sep);
      assert pieces[0] + [sep] + rest == pieces[0] + ([sep] + rest);
      assert ([sep] + rest)[1..] == rest;
      assert Split([sep] + rest, sep) == [""] + pieces[1..];
      assert pieces[0] + "" == pieces[0];
    }
  }

  /** Newline-terminated lines are the newline-joined lines plus one empty
      piece after the final newline. */
  lemma {:induction false} TerminatedIsJoin(lines: seq<string>)
    ensures Terminated(lines) == JoinWith(lines + [""], '\n')
    decreases |lines|
  {
    if |lines| == 0 {
    } else {
      TerminatedIsJoin(lines[1..]);
      assert (lines + [""])[1..] == lines[1..] + [""];
    }
  }

  /** `''.join` of pieces none of which contains `c` does not contain `c`. */
  lemma {:induction false} ConcatExcludes(pieces: seq<string>, c: char)
    requires forall i :: 0 <= i < |pieces| ==> c !in pieces[i]
    ensures c !in Concat(pieces)
    decreases |pieces|
  {
    if |pieces| > 0 {
      ConcatExcludes(pieces[1..], c);
    }
  }
}

=== FILE: pyvalue.dfy ===
/** The Python values the modelled code stores in dicts, and the dict
    operations it uses: `get` with a default, truthiness, and `update`. */
module PyValue {

  newtype byte = x: int | 0 <= x < 256

  /** A Python value as found in the configuration dicts, the session and the
      SAML parameter dicts: `None`, a `str` or a `bytes` object. */
  datatype Value = NoneV | Str(s: string) | Bytes(b: seq<byte>)

  /** A Python `dict` keyed by `str`. */
  type Params = map<string, Value>

  /** Python truthiness: `None`, `''` and `b''` are false, everything else true. */
  predicate Truthy(v: Value) {
    match v
    case NoneV => false
    case Str(s) => s != ""
    case Bytes(b) => b != []
  }

  /** `d.get(k, default)`. */
  function Get(d: Params, k: string, default: Value): (r: Value)
    ensures k in d ==> r == d[k]
    ensures k !in d ==> r == default
  {
    if k in d then d[k] else default
  }

  /** `d.update(e)` as a value: the keys of both, with `e` winning on a clash. */
  function Update(d: Params, e: Params): (r: Params)
    ensures r.Keys == d.Keys + e.Keys
    ensures forall k :: k in e ==> r[k] == e[k]
    ensures forall k :: k in d && k !in e ==> r[k] == d[k]
  {
    d + e
  }
}

=== FILE: wrappers.dfy ===
/** Failure-compatible wrappers used in place of Python's None and exceptions. */
module Wrappers {

  /** Python's None (or an attribute never assigned) versus a present value. */
  datatype Option<+T> = None | Some(value: T)

  /** The outcome of a call that either returns a value or raises. */
  datatype Result<+T, +E> = Success(value: T) | Failure(error: E) {

    predicate IsFailure() {
      Failure?
    }

    function PropagateFailure<U>(): Result<U, E>
      requires Failure?
    {
      Failure(error)
    }

    function Extract(): T
      requires Success?
    {
      value
    }

    /** Translates the exception carried by a failure, keeping a success as it is. */
    function MapFailure<E2>(f: E -> E2): Result<T, E2>
    {
      match this
      case Success(v) => Success(v)
      case Failure(e) => Failure(f(e))
    }
  }

  /** The outcome of a call that returns nothing of interest or raises. */
  datatype Outcome<+E> = Pass | Fail(error: E)
}

=== FILE: xml_signing.dfy ===
/** The XML-DSig (enveloped, RSA-SHA1) signature pipeline of the identity
    provider: where the signing key and the certificate come from, how the
    certificate body is cut out of its PEM text, and how the digest, the
    SignedInfo element, the RSA signature and the Signature element are wired
    together. Cryptography, base64, UTF-8 and template rendering are
    collaborators passed in as functions. */
module XmlSigning {
  import opened Wrappers
  import opened PyValue
  import opened PySeq

  /** Configuration keys of the identity provider's settings dict. */
  const CertificateData: string := "certificate_data"
  const CertificateFilename: string := "certificate_file"
  const PrivateKeyData: string := "private_key_data"
  const PrivateKeyFilename: string := "private_key_file"

  /** Placeholder names of the two templates. */
  const ReferenceUri: string := "REFERENCE_URI"
  const SubjectDigestKey: string := "SUBJECT_DIGEST"
  const RsaSignature: string := "RSA_SIGNATURE"
  const SignedInfo: string := "SIGNED_INFO"
  const Certificate: string := "CERTIFICATE"

  /** The foreign code the pipeline calls, with `K` the type of a private key
      object. A failure carries the text of the exception raised. */
  datatype Provider<!K> = Provider(
    loadKeyString: Value -> Result<K, string>,        // M2Crypto.EVP.load_key_string
    loadKey: Value -> Result<K, string>,              // M2Crypto.EVP.load_key
    loadCertPem: Value -> Result<seq<byte>, string>,  // M2Crypto.X509.load_cert(f).as_pem()
    signInit: K -> Result<K, string>,                 // key.sign_init()
    signUpdate: (K, seq<byte>) -> Result<K, string>,  // key.sign_update(b)
    signFinal: K -> Result<seq<byte>, string>,        // key.sign_final()
    sha1: seq<byte> -> seq<byte>,                     // hashlib.sha1 digest
    nice64: seq<byte> -> seq<byte>,                   // codex.nice64 on the raw digest and signature bytes
    encodeUtf8: string -> seq<byte>,                  // str.encode('utf-8')
    decodeUtf8: seq<byte> -> Result<string, string>)  // bytes.decode('utf-8')

  datatype TemplateKind = SignedInfoTemplate | SignatureTemplate

  /** A template object: which template, and the parameters it was built with. */
  datatype XmlTemplate = XmlTemplate(kind: TemplateKind, params: Params)

  /** The two views a template object offers: its `xml` property and its
      `get_xml_string()` rendering. */
  datatype Templates = Templates(
    xml: XmlTemplate -> string,
    xmlString: XmlTemplate -> string)

  // ---------------------------------------------------------------------
  // Certificate

  /** The certificate body of PEM text: the lines between the first line and
      the last two pieces of `pem.split('\n')`, joined without separators. */
  function PemBody(pem: string): (r: string)
    ensures '\n' !in r
    ensures var lines := Split(pem, '\n');
      r == if |lines| >= 3 then Concat(lines[1..|lines| - 2]) else ""
  {
    var lines := Split(pem, '\n');
    SliceDropsFirstAndLastTwo(lines);
    ConcatExcludes(Slice(lines, 1, -2), '\n');
    Concat(Slice(lines, 1, -2))
  }

  /** For the PEM layout `H\nb1\n...\nbk\nF\n`, the body is exactly `b1 + ... + bk`:
      the header and footer lines are gone. */
  lemma {:induction false} PemBodyOfPemLayout(header: string, body: seq<string>, footer: string)
    requires '\n' !in header && '\n' !in footer
    requires forall i :: 0 <= i < |body| ==> '\n' !in body[i]
    ensures PemBody(Terminated([header] + body + [footer])) == Concat(body)
  {
    var lines := [header] + body + [footer];
    var pieces := lines + [""];
    TerminatedIsJoin(lines);
    NoNewlineInPieces(header, body, footer);
    SplitJoin(pieces, '\n');
    var pem := Terminated(lines);
    PemBodyOfLines(pem, pieces);
    MiddleOfPieces(header, body, footer);
  }

  /** The pieces of PEM text between the header line and the footer line. */
  lemma MiddleOfPieces(header: string, body: seq<string>, footer: string)
    ensures var pieces := [header] + body + [footer] + [""];
      |pieces| == |body| + 3 && pieces[1..|pieces| - 2] == body
  {
  }

  /** The body in terms of the split lines, once they are known. */
  lemma PemBodyOfLines(pem: string, pieces: seq<string>)
    requires Split(pem, '\n') == pieces && |pieces| >= 3
    ensures PemBody(pem) == Concat(pieces[1..|pieces| - 2])
  {
  }

  /** None of the split pieces of newline-free lines holds a newline. */
  lemma NoNewlineInPieces(header: string, body: seq<string>, footer: string)
    requires '\n' !in header && '\n' !in footer
    requires forall i :: 0 <= i < |body| ==> '\n' !in body[i]
    ensures var pieces := [header] + body + [footer] + [""];
      forall i :: 0 <= i < |pieces| ==> '\n' !in pieces[i]
  {
  }

  /** `load_certificate`: inline data when its key is present (whatever its
      value), otherwise the body of the PEM text of the certificate file. */
  function LoadCertificate<K>(config: Params, p: Provider<K>): (r: Result<Value, string>)
    ensures CertificateData in config ==> r == Success(config[CertificateData])
    ensures CertificateData !in config ==>
      var pem := p.loadCertPem(Get(config, CertificateFilename, NoneV));
      (r.Success? <==> pem.Success? && p.decodeUtf8(pem.value).Success?) &&
      (r.Success? ==> r.value == Str(PemBody(p.decodeUtf8(pem.value).value)))
    ensures r.Success? && CertificateData !in config ==> r.value.Str? && '\n' !in r.value.s
    ensures CertificateData !in config ==>
      var pem := p.loadCertPem(Get(config, CertificateFilename, NoneV));
      && (pem.Failure? ==> r == Failure(pem.error))
      && (pem.Success? && p.decodeUtf8(pem.value).Failure? ==> r == Failure(p.decodeUtf8(pem.value).error))
  {
    if CertificateData in config then
      Success(Get(config, CertificateData, Str("")))
    else
      var filename := Get(config, CertificateFilename, NoneV);
      var pemBytes :- p.loadCertPem(filename);
      var pem :- p.decodeUtf8(pemBytes);
      Success(Str(PemBody(pem)))
  }

  // ---------------------------------------------------------------------
  // Private key

  /** The key file name as handed to the loader: a `bytes` name is decoded
      from UTF-8, anything else passes unchanged. */
  function KeyFileArgument<K>(p: Provider<K>, file: Value): (r: Result<Value, string>)
    ensures !file.Bytes? ==> r == Success(file)
    ensures file.Bytes? ==>
      (r.Success? <==> p.decodeUtf8(file.b).Success?) &&
      (r.Success? ==> r.value == Str(p.decodeUtf8(file.b).value))
    ensures r.Success? ==> !r.value.Bytes?
  {
    if file.Bytes? then
      var name :- p.decodeUtf8(file.b);
      Success(Str(name))
    else
      Success(file)
  }

  /** `load_private_key`: the inline key data when it is truthy, otherwise
      the key file. An absent, `None` or empty inline value falls through to
      the file, unlike the certificate's presence test. */
  function LoadPrivateKey<K>(config: Params, p: Provider<K>): (r: Result<K, string>)
    ensures Truthy(Get(config, PrivateKeyData, NoneV)) ==>
      r == p.loadKeyString(config[PrivateKeyData])
    ensures !Truthy(Get(config, PrivateKeyData, NoneV)) ==>
      var arg := KeyFileArgument(p, Get(config, PrivateKeyFilename, NoneV));
      (arg.Success? ==> r == p.loadKey(arg.value)) &&
      (arg.Failure? ==> r == Failure(arg.error))
  {
    var data := Get(config, PrivateKeyData, NoneV);
    if Truthy(data) then
      p.loadKeyString(data)
    else
      var file :- KeyFileArgument(p, Get(config, PrivateKeyFilename, NoneV));
      p.loadKey(file)
  }

  /** The empty string counts as inline data for the certificate but not for
      the key: an empty inline certificate is returned as is, while an empty
      inline key sends loading to the key file. */
  lemma EmptyInlineValues<K>(config: Params, p: Provider<K>)
    requires CertificateData in config && config[CertificateData] == Str("")
    requires PrivateKeyData in config && config[PrivateKeyData] == Str("")
    ensures LoadCertificate(config, p) == Success(Str(""))
    ensures var arg := KeyFileArgument(p, Get(config, PrivateKeyFilename, NoneV));
      arg.Success? ==> LoadPrivateKey(config, p) == p.loadKey(arg.value)
  {
  }

  // ---------------------------------------------------------------------
  // Signing

  /** One signing pass over `msg`: init, a single update, final. */
  function RawSignature<K>(p: Provider<K>, key: K, msg: seq<byte>): Result<seq<byte>, string>
  {
    var started :- p.signInit(key);
    var fed :- p.signUpdate(started, msg);
    p.signFinal(fed)
  }

  /** `sign_with_rsa`: the base64 (via `nice64`) of the signature over the
      UTF-8 bytes of `data`. */
  function SignWithRsa<K>(p: Provider<K>, key: K, data: string): (r: Result<seq<byte>, string>)
    ensures var raw := RawSignature(p, key, p.encodeUtf8(data));
      (r.Success? <==> raw.Success?) &&
      (r.Success? ==> r.value == p.nice64(raw.value)) &&
      (r.Failure? ==> r.error == raw.error)
  {
    var signature :- RawSignature(p, key, p.encodeUtf8(data));
    Success(p.nice64(signature))
  }

  /** The subject digest: the base64 text of the SHA-1 of the subject's UTF-8
      bytes. It fails exactly when that base64 is not UTF-8; with a sound
      UTF-8 codec its bytes are the base64 of the hash. */
  function SubjectDigest<K>(p: Provider<K>, subject: string): (r: Result<string, string>)
    ensures var encoded := p.nice64(p.sha1(p.encodeUtf8(subject)));
      && (r.Success? <==> p.decodeUtf8(encoded).Success?)
      && (r.Failure? ==> r.error == p.decodeUtf8(encoded).error)
      && (Utf8Inverts(p) && r.Success? ==> p.encodeUtf8(r.value) == encoded)
  {
    p.decodeUtf8(p.nice64(p.sha1(p.encodeUtf8(subject))))
  }

  /** A relying party that base64-decodes the digest text gets back the SHA-1
      of the subject's UTF-8 bytes. */
  lemma DigestDecodesToHash<K>(p: Provider<K>, v: Verifier, subject: string)
    requires Base64Inverts(p, v) && Utf8Inverts(p)
    requires SubjectDigest(p, subject).Success?
    ensures v.b64decode(p.encodeUtf8(SubjectDigest(p, subject).value)) == p.sha1(p.encodeUtf8(subject))
  {
  }

  /** The SignedInfo template object for a reference and a digest. */
  function SignedInfoFor(referenceUri: string, digest: string): (t: XmlTemplate)
    ensures t.kind == SignedInfoTemplate
    ensures t.params.Keys == {ReferenceUri, SubjectDigestKey}
    ensures t.params[ReferenceUri] == Str(referenceUri)
    ensures t.params[SubjectDigestKey] == Str(digest)
  {
    XmlTemplate(SignedInfoTemplate, map[ReferenceUri := Str(referenceUri), SubjectDigestKey := Str(digest)])
  }

  /** The body of `get_signature_xml` once key and certificate are loaded:
      the Signature template object. Its SIGNED_INFO is the `xml` of the one
      SignedInfo object whose `get_xml_string()` was signed, and that object
      was built from the reference and the digest of the subject. */
  function AssembleSignature<K>(p: Provider<K>, t: Templates, key: K, certificate: Value,
                                subject: string, referenceUri: string): (r: Result<XmlTemplate, string>)
    ensures r.Success? <==>
      && SubjectDigest(p, subject).Success?
      && var info := SignedInfoFor(referenceUri, SubjectDigest(p, subject).value);
         && SignWithRsa(p, key, t.xmlString(info)).Success?
         && p.decodeUtf8(SignWithRsa(p, key, t.xmlString(info)).value).Success?
    ensures r.Success? ==>
      && r.value.kind == SignatureTemplate
      && r.value.params.Keys == {RsaSignature, SignedInfo, Certificate}
      && r.value.params[Certificate] == certificate
      && var info := SignedInfoFor(referenceUri, SubjectDigest(p, subject).value);
         && r.value.params[SignedInfo] == Str(t.xml(info))
         && r.value.params[RsaSignature] ==
              Str(p.decodeUtf8(SignWithRsa(p, key, t.xmlString(info)).value).value)
    ensures SubjectDigest(p, subject).Failure? ==> r == Failure(SubjectDigest(p, subject).error)
    ensures SubjectDigest(p, subject).Success? ==>
      var info := SignedInfoFor(referenceUri, SubjectDigest(p, subject).value);
      var signature := SignWithRsa(p, key, t.xmlString(info));
      && (signature.Failure? ==> r == Failure(signature.error))
      && (signature.Success? && p.decodeUtf8(signature.value).Failure? ==>
            r == Failure(p.decodeUtf8(signature.value).error))
  {
    var digest :- SubjectDigest(p, subject);
    var info := SignedInfoFor(referenceUri, digest);
    var signature :- SignWithRsa(p, key, t.xmlString(info));
    var signatureText :- p.decodeUtf8(signature);
    Success(XmlTemplate(SignatureTemplate, map[
      RsaSignature := Str(signatureText),
      SignedInfo := Str(t.xml(info)),
      Certificate := certificate]))
  }

  /** `get_signature_xml`: load the key, then the certificate, then assemble;
      the first failure is the result, and a key failure means the
      certificate is never loaded. */
  function GetSignatureXml<K>(config: Params, p: Provider<K>, t: Templates,
                              subject: string, referenceUri: string): (r: Result<string, string>)
    ensures LoadPrivateKey(config, p).Failure? ==> r == Failure(LoadPrivateKey(config, p).error)
    ensures LoadPrivateKey(config, p).Success? && LoadCertificate(config, p).Failure? ==>
      r == Failure(LoadCertificate(config, p).error)
    ensures r.Success? <==>
      && LoadPrivateKey(config, p).Success?
      && LoadCertificate(config, p).Success?
      && AssembleSignature(p, t, LoadPrivateKey(config, p).value,
                           LoadCertificate(config, p).value, subject, referenceUri).Success?
    ensures LoadPrivateKey(config, p).Success? && LoadCertificate(config, p).Success? ==>
      var assembled := AssembleSignature(p, t, LoadPrivateKey(config, p).value,
                                         LoadCertificate(config, p).value, subject, referenceUri);
      assembled.Failure? ==> r == Failure(assembled.error)
    ensures r.Success? ==>
      r.value == t.xml(AssembleSignature(p, t, LoadPrivateKey(config, p).value,
                                         LoadCertificate(config, p).value, subject, referenceUri).value)
  {
    var key :- LoadPrivateKey(config, p);
    var certificate :- LoadCertificate(config, p);
    var signature :- AssembleSignature(p, t, key, certificate, subject, referenceUri);
    Success(t.xml(signature))
  }

  // ---------------------------------------------------------------------
  // What a verifier sees

  /** A relying party's side: base64 decoding and RSA-SHA1 verification
      against a certificate. */
  datatype Verifier = Verifier(
    b64decode: seq<byte> -> seq<byte>,
    verify: (Value, seq<byte>, seq<byte>) -> bool)

  /** Decoding undoes `nice64`. */
  ghost predicate Base64Inverts<K>(p: Provider<K>, v: Verifier) {
    forall b :: v.b64decode(p.nice64(b)) == b
  }

  /** Encoding a successfully decoded text gives back its bytes. */
  ghost predicate Utf8Inverts<K>(p: Provider<K>) {
    forall b :: p.decodeUtf8(b).Success? ==> p.encodeUtf8(p.decodeUtf8(b).value) == b
  }

  /** The certificate verifies whatever the key signs. */
  ghost predicate CertifiesKey<K>(p: Provider<K>, v: Verifier, key: K, certificate: Value) {
    forall m :: RawSignature(p, key, m).Success? ==>
      v.verify(certificate, m, RawSignature(p, key, m).value)
  }

  /** A template object's `xml` is the text `get_xml_string()` renders. */
  ghost predicate StableRendering(t: Templates) {
    forall x :: t.xml(x) == t.xmlString(x)
  }

  /** The check a verifier makes on the Signature element's parts: the RSA
      signature verifies the embedded SignedInfo text under the embedded
      certificate. */
  ghost predicate Accepts<K>(p: Provider<K>, v: Verifier, params: Params) {
    && RsaSignature in params && SignedInfo in params && Certificate in params
    && params[RsaSignature].Str? && params[SignedInfo].Str?
    && v.verify(params[Certificate],
                p.encodeUtf8(params[SignedInfo].s),
                v.b64decode(p.encodeUtf8(params[RsaSignature].s)))
  }

  /** Because the text signed and the text embedded come from the same
      SignedInfo object, a signature assembled with a key its certificate
      certifies is accepted by a verifier, given sound codecs and a stable
      rendering. */
  lemma EmbeddedSignatureVerifies<K>(p: Provider<K>, v: Verifier, t: Templates, key: K,
                                     certificate: Value, subject: string, referenceUri: string)
    requires Base64Inverts(p, v) && Utf8Inverts(p) && StableRendering(t)
    requires CertifiesKey(p, v, key, certificate)
    requires AssembleSignature(p, t, key, certificate, subject, referenceUri).Success?
    ensures Accepts(p, v, AssembleSignature(p, t, key, certificate, subject, referenceUri).value.params)
  {
  }
}
